=== FILE: README.md ===
# Claim ledger of the claims-management backend, in Dafny

This project models the claim ledger of a small claims-management REST backend. Each
policy has a coverage `amount` and a running `claimedAmount`. Creating, updating and
deleting a claim are meant to keep `claimedAmount` equal to the sum of the `claimAmount`s
of the policy's claims, and below `amount`. The policy create, update and delete
operations are plain passthroughs to the policy collection.

Each operation is a pure transition on an immutable `Store`. The store holds both
collections as sequences in insertion order. A query by id (`findOne`) returns the first
document with that id, which is why duplicate ids are visible in the model: nothing in the
source rejects them. A claim operation returns `Result<Store, Error>` with the errors
`PolicyNotFound`, `ClaimNotFound` and `ExceedsLimit`. A failure carries no store, so a
refused operation leaves the store as it was. The policy operations never fail.

Amounts are mathematical integers. A missing or null stored `claimedAmount` is modelled as
0, for two reasons: the schema default fills a missing field on load, and JavaScript
arithmetic treats null as 0. The reset of a falsy `claimedAmount` that `createClaim` applies
before its check is therefore the identity here. Patches and create bodies carry `Option`
fields, where `None` means the request leaves the field out.

Modules, one per concern:
- `Wrappers`: `Option` and `Result`.
- `Records`: documents, request bodies, patching, and JavaScript `||`.
- `Lookup`: first-match lookup in an ordered collection.
- `Ledger`: the store, the per-policy sum `Charged`, and the invariants `Consistent` and `WithinCoverage`.
- `ClaimOps` and `PolicyOps`: the six operations.
- `ClaimInvariants` and `PolicyInvariants`: what the operations preserve.
- `Defects`: how the source breaks the invariants.
- `IntendedUpdate`: the corrected claim update.
- `Scenarios`: worked runs.

Three behaviours the model keeps exactly as the code has them:
- The update computes the charged amount with JavaScript's or-operator, which falls back on 0 as well as on an absent value.
- Negative amounts are accepted.
- Updating or deleting a policy whose id no document has is not an error.

## Model

| member | source | states |
|---|---|---|
| `Records.NewPolicy` | backend/models/models.js:10-18 | a created policy copies the request's `policyId`, `policyholderId`, `amount`, `premium`, `startDate` and `endDate`, and its `claimedAmount` is the request's, defaulting to 0 when the request leaves it out |
| `Records.OrElseDiffersFromGetOr` | backend/router/router.js:108 | JavaScript's or-fallback for the new claim amount differs from a fallback used only when the amount is absent exactly when the patch supplies 0 and the old amount is not 0 |
| `Records.PatchClaimProperties` | backend/router/router.js:118 | the claim update overwrites only the supplied fields: an empty patch is the identity, a repeated patch changes nothing more, and omitted `policyId`/`claimAmount` stay |
| `Lookup.FirstMatch` | backend/router/router.js:39 | a query by id returns the first document with that id, or nothing exactly when no document has it |
| `Ledger.PolicyOf` | backend/router/router.js:39-42 | the policy a query returns has the requested id, and there is none exactly when no policy document has the id |
| `Ledger.ClaimOf` | backend/router/router.js:98-101 | the claim a query returns has the requested id, and there is none exactly when no claim document has it |
| `ClaimOps.CreateClaim` | backend/router/router.js:37-60 | fails with PolicyNotFound when the policy is missing, and with ExceedsLimit when `claimAmount > amount - claimedAmount`; otherwise it appends the claim, raises that policy's `claimedAmount` by exactly `claimAmount` in the document the lookup found, and leaves every other policy document, duplicates included, as it was |
| `ClaimOps.UpdateClaim` | backend/router/router.js:96-123 | fails with ClaimNotFound or PolicyNotFound when a lookup fails, and with ExceedsLimit when the charge (the patch amount when present and non-zero, else `old`) exceeds `amount - claimedAmount + old`; otherwise it sets `claimedAmount` to `claimedAmount - old + charge`, writes the patch to the claim as given, and leaves every other policy document, duplicates included, as it was |
| `ClaimOps.DeleteClaim` | backend/router/router.js:134-153 | fails with ClaimNotFound or PolicyNotFound when a lookup fails; otherwise it removes the claim and lowers its policy's `claimedAmount` by the claim's amount, with no floor, in the document the lookup found, leaving every other policy document, duplicates included, as it was |
| `ClaimInvariants.CreateClaimKeepsConsistent` | backend/router/router.js:53-55 | a successful create keeps every reachable policy's `claimedAmount` equal to the sum over its claims |
| `ClaimInvariants.CreateClaimKeepsCoverage` | backend/router/router.js:48-51 | a successful create keeps every reachable policy at or under its `amount` |
| `ClaimInvariants.UpdateClaimKeepsConsistent` | backend/router/router.js:108-118 | a successful update keeps the sums in step when the patch leaves the claim on its policy and does not set `claimAmount` to 0 |
| `ClaimInvariants.UpdateClaimKeepsCoverage` | backend/router/router.js:109-115 | a successful update keeps every reachable policy at or under its `amount`, whatever the patch |
| `ClaimInvariants.DeleteClaimKeepsConsistent` | backend/router/router.js:146-149 | a successful delete keeps every reachable policy's `claimedAmount` equal to the sum over its claims |
| `ClaimInvariants.DeleteClaimKeepsCoverage` | backend/router/router.js:146-147 | with non-negative claim amounts, a successful delete keeps every reachable policy under its `amount` |
| `ClaimInvariants.CreateThenDeleteRestores` | backend/router/router.js:53-55 | deleting a claim just created under a fresh id returns exactly the store it was created in |
| `ClaimInvariants.EmptyPatchChangesNothing` | backend/router/router.js:108-118 | on a store within coverage, an update with an empty patch succeeds and changes nothing |
| `ClaimInvariants.DuplicateClaimIdIsShadowed` | backend/router/router.js:53 | a claim created under an id in use is charged to its policy, but a query by that id still returns the older claim |
| `PolicyOps.CreatePolicy` | backend/router/router.js:29-35 | appends the new policy after every existing policy document without touching claims; a fresh id then finds the new policy, while a taken id keeps finding the older one, and no other lookup changes |
| `PolicyOps.UpdatePolicy` | backend/router/router.js:88-94 | overwrites every supplied field of the policy the id finds, `amount` and `claimedAmount` included, without touching claims; a missing id changes nothing; other policies stay |
| `PolicyOps.DeletePolicy` | backend/router/router.js:126-132 | removes exactly one document, the policy the id finds: the remaining documents are the others in their old order, and with that one they are the old collection as a multiset; every claim and every other lookup stay; with unique ids the id then finds nothing; a missing id changes nothing |
| `PolicyInvariants.CreatePolicyKeepsConsistent` | backend/router/router.js:29-35 | a new policy keeps the sums in step when it starts at its claims' total, or when it is shadowed by an older one |
| `PolicyInvariants.CreatePolicyKeepsCoverage` | backend/router/router.js:29-35 | a new policy keeps every policy under its ceiling when it starts under its own |
| `PolicyInvariants.CreateThenDeletePolicyRestores` | backend/router/router.js:126-129 | deleting a policy just created under a fresh id returns exactly the store it was created in |
| `PolicyInvariants.UpdatePolicyKeepsInvariants` | backend/router/router.js:88-91 | an update whose patched document keeps the stored `amount`, `claimedAmount` and `policyId`, whether the patch omits or restates them, keeps both invariants |
| `PolicyInvariants.DeletePolicyKeepsInvariants` | backend/router/router.js:126-129 | with unique policy ids, a delete keeps both invariants |
| `Defects.ZeroPatchDesyncsLedger` | backend/router/router.js:108-118 | on a consistent store within coverage, a patch setting a non-zero claim to 0 succeeds and leaves the store inconsistent, whatever `policyId` the patch carries |
| `Defects.MovedClaimDesyncsLedger` | backend/router/router.js:103-118 | on a consistent store, a patch moving a non-zero claim to another policy, with or without an amount, succeeds whenever the charged amount (the patch amount, or the old amount when the patch's is absent or 0) fits the old policy's headroom, and leaves the store inconsistent |
| `Defects.NegativeClaimIsAccepted` | backend/router/router.js:48-55 | a negative claim on a policy under its ceiling is accepted and lowers that policy's `claimedAmount` |
| `Defects.DeleteClaimCoverageExactly` | backend/router/router.js:146 | on a store within coverage, a delete keeps it within coverage exactly when `claimedAmount - claimAmount <= amount` for the claim's policy |
| `Defects.DeleteClaimHasNoFloor` | backend/router/router.js:146 | a delete whose claim amount exceeds its policy's `claimedAmount` succeeds and leaves it negative |
| `Defects.UpdatePolicyCanBreakCoverage` | backend/router/router.js:88-91 | lowering `amount` below `claimedAmount` is accepted and leaves the store over coverage |
| `Defects.UpdatePolicyCanBreakConsistency` | backend/router/router.js:88-91 | overwriting `claimedAmount` with anything but the claims' total is accepted and leaves the store inconsistent |
| `Defects.DeletePolicyOrphansClaims` | backend/router/router.js:126-129 | with unique ids, after a policy is deleted its claims remain, and each fails to update or delete with PolicyNotFound |
| `Defects.RecreatedPolicyForgetsClaims` | backend/router/router.js:29-35 | with unique policy ids, deleting a policy whose claims total is not 0 and re-creating it with the default `claimedAmount` leaves the store inconsistent |
| `Defects.ShadowedPolicyResurfaces` | backend/router/router.js:29-35 | a policy created under a taken id is hidden until the first is deleted, then found instead; if its `claimedAmount` is not the claims' total, the store becomes inconsistent |
| `IntendedUpdate.UpdateClaimIntended` | backend/router/router.js:96-123 | the corrected update fails with ClaimNotFound or PolicyNotFound when the claim, its policy, or the policy it is moved to is missing; when all three exist it fails with ExceedsLimit exactly when the patched amount exceeds the headroom (`amount - claimedAmount + old` on the same policy, `amount - claimedAmount` of the target policy on a move) and succeeds otherwise, storing the patched claim in place |
| `IntendedUpdate.IntendedLeavesOtherPolicies` | backend/router/router.js:103-118 | a successful corrected update keeps the number of policy documents and changes none but the two its old and patched policy ids find, hidden duplicates included |
| `IntendedUpdate.IntendedAgreesWithSource` | backend/router/router.js:108-118 | for every patch that neither sets the amount to 0 nor moves the claim, the corrected update returns what the source's update returns |
| `IntendedUpdate.IntendedKeepsConsistent` | backend/router/router.js:108-118 | a successful corrected update keeps every total in step, whatever the patch |
| `IntendedUpdate.IntendedKeepsCoverage` | backend/router/router.js:109-115 | with non-negative claim amounts, a successful corrected update keeps every policy under its ceiling |
| `IntendedUpdate.IntendedZeroPatchKeepsConsistent` | backend/router/router.js:108 | on a store within coverage with non-negative claim amounts, the corrected update accepts a zero-amount patch of an existing claim on an existing policy, whether it leaves `policyId` out or restates it, stores 0, refunds the old amount to the policy, and keeps the totals in step |
| `IntendedUpdate.IntendedMoveCharges` | backend/router/router.js:103-118 | a move to an existing policy with headroom for the patched amount is accepted, charges that policy the patched amount and refunds the old policy the old amount |
| `IntendedUpdate.IntendedMovedLookups` | backend/router/router.js:103-118 | after any successful move of a claim between the policies two queries find, the target policy carries the patched amount on top of its total and the old policy has lost the old amount |
| `Scenarios.ClaimWithinHeadroomIsCharged` | backend/router/router.js:48-55 | a claim of 400 on a policy covering 1000 is accepted and charges 400 |
| `Scenarios.ClaimBeyondHeadroomIsRefused` | backend/router/router.js:48-51 | with 400 charged, a claim of 700 is refused with ExceedsLimit |
| `Scenarios.UpdateThenDeleteRefunds` | backend/router/router.js:108-149 | raising that claim to 900 is accepted and charges 900; deleting it brings the total back to 0 |
| `Scenarios.ClaimOnMissingPolicyIsRefused` | backend/router/router.js:39-42 | a claim naming a missing policy is refused with PolicyNotFound |
| `Scenarios.NegativeClaimLetsChargesExceedCoverage` | backend/router/router.js:48-55 | a claim of -500 makes room for 1500 on a policy covering 1000; deleting the -500 leaves 1500 charged |
| `Scenarios.DeleteKeepsOrderOfDuplicates` | backend/router/router.js:126-128 | of three documents sharing one policy id, a delete removes the first and leaves the other two in order, so the next query finds the second |

## Left out

- HTTP routing, status codes and error-message strings: transport glue around the operations.
- Persistence failures and the partial writes they leave: the model has no store faults.
- Concurrency: each operation is one atomic transition. The source's two-document read-modify-write can lose updates under concurrent requests.
- Return values: the created or updated claim a request returns is not modelled; only the store is.
- Reads (`getAllPolicies`, `getAllClaims`, queries by id): they change nothing, and any lookup is a pure function of the store.
- Authentication and registration: that code is not part of this model.
- Policyholder operations and date formatting: passthroughs with no ledger role.
- Frontend pages and their client-side amount checks: UI only.
- JavaScript number semantics: floating point, NaN from a missing `amount` or `claimAmount`, and numeric strings that `+=` would concatenate. Amounts are integers.
- Fields a request sets to null, and fields outside the schema: patches only supply or omit a field.
- Query order: the model assumes the collection's natural order is insertion order, so a query by id returns the oldest match.
- ClaimInvariants.UpdateClaimKeepsConsistent: stated only for patches that keep the claim on its policy and do not set the amount to 0, because the other patches break the invariant (`Defects.ZeroPatchDesyncsLedger`, `Defects.MovedClaimDesyncsLedger`).
- ClaimInvariants.DeleteClaimKeepsCoverage: requires non-negative claim amounts, because a negative claim's deletion can break the ceiling (`Defects.DeleteClaimCoverageExactly`).
- PolicyInvariants.DeletePolicyKeepsInvariants: requires unique policy ids, because a shadowed duplicate can surface (`Defects.ShadowedPolicyResurfaces`).

## Findings

| source | as written | input that shows it | evidently intended | confidence | as-written member | corrected member |
|---|---|---|---|---|---|---|
| backend/router/router.js:108 | the charged amount falls back to the old amount when the patch amount is falsy, so a patch amount of 0 charges the old amount, while line 118 stores 0 in the claim | a consistent policy with one claim of 400, updated with `claimAmount: 0`: `claimedAmount` stays 400 while its claims sum to 0 | fall back to the old amount only when the patch leaves it out, so the charge equals what is stored | not executed | `Defects.ZeroPatchDesyncsLedger` | `IntendedUpdate.UpdateClaimIntended` |
| backend/router/router.js:103-118 | the re-charged policy is always the claim's old policy, even when the patch moves the claim to another `policyId` | a claim of 400 on P1 patched with `policyId: P2`: P1 keeps charging 400 for a claim that names P2, and P2 is never charged | refund the old policy, and charge the new one after checking that it exists and has the headroom | not executed | `Defects.MovedClaimDesyncsLedger` | `IntendedUpdate.UpdateClaimIntended` |

=== FILE: claim_invariants.dfy ===
/**
 What the claim ledger keeps and what it undoes: the sum invariant (`Consistent`) and the
 coverage ceiling (`WithinCoverage`) across each claim operation, and the round trips
 between them.
 */
module ClaimInvariants {
  import opened Wrappers
  import opened Records
  import opened Lookup
  import opened Ledger
  import opened ClaimOps

  /** A created claim is charged to its policy in full, so every total stays in step. */
  lemma CreateClaimKeepsConsistent(st: Store, claim: Claim)
    requires Consistent(st) && CreateClaim(st, claim).Success?
    ensures Consistent(CreateClaim(st, claim).value)
  {
    var st' := CreateClaim(st, claim).value;
    forall id | PolicyOf(st', id).Some?
      ensures PolicyOf(st', id).value.claimedAmount == Charged(st'.claims, id)
    {
      ChargedAppend(st.claims, claim, id);
    }
  }

  /** The headroom check keeps the charged policy under its ceiling; no other policy moves. */
  lemma CreateClaimKeepsCoverage(st: Store, claim: Claim)
    requires WithinCoverage(st) && CreateClaim(st, claim).Success?
    ensures WithinCoverage(CreateClaim(st, claim).value)
  {
  }

  /**
   An update keeps every total in step as long as the stored claim is charged what the
   ledger charges: the patch leaves the claim on its policy and does not set the amount to 0.
   */
  lemma UpdateClaimKeepsConsistent(st: Store, claimId: string, patch: ClaimPatch)
    requires Consistent(st) && UpdateClaim(st, claimId, patch).Success?
    requires patch.policyId.None? || patch.policyId == Some(ClaimOf(st, claimId).value.policyId)
    requires patch.claimAmount != Some(0)
    ensures Consistent(UpdateClaim(st, claimId, patch).value)
  {
    var st' := UpdateClaim(st, claimId, patch).value;
    var k := FindClaim(st, claimId).value;
    var c := st.claims[k];
    var c' := PatchClaim(c, patch);
    assert c'.policyId == c.policyId && c'.claimAmount == OrElse(patch.claimAmount, c.claimAmount);
    forall id | PolicyOf(st', id).Some?
      ensures PolicyOf(st', id).value.claimedAmount == Charged(st'.claims, id)
    {
      ChargedReplace(st.claims, k, c', id);
    }
  }

  /** The refund-then-recharge headroom check keeps the charged policy under its ceiling. */
  lemma UpdateClaimKeepsCoverage(st: Store, claimId: string, patch: ClaimPatch)
    requires WithinCoverage(st) && UpdateClaim(st, claimId, patch).Success?
    ensures WithinCoverage(UpdateClaim(st, claimId, patch).value)
  {
  }

  /** Deleting a claim refunds exactly its amount, so every total stays in step. */
  lemma DeleteClaimKeepsConsistent(st: Store, claimId: string)
    requires Consistent(st) && DeleteClaim(st, claimId).Success?
    ensures Consistent(DeleteClaim(st, claimId).value)
  {
    var st' := DeleteClaim(st, claimId).value;
    var k := FindClaim(st, claimId).value;
    forall id | PolicyOf(st', id).Some?
      ensures PolicyOf(st', id).value.claimedAmount == Charged(st'.claims, id)
    {
      ChargedRemove(st.claims, k, id);
    }
  }

  /** A refund of a non-negative amount cannot push a policy over its ceiling. */
  lemma DeleteClaimKeepsCoverage(st: Store, claimId: string)
    requires WithinCoverage(st) && NonNegativeClaims(st) && DeleteClaim(st, claimId).Success?
    ensures WithinCoverage(DeleteClaim(st, claimId).value)
  {
    var k := FindClaim(st, claimId).value;
    assert st.claims[k].claimAmount >= 0;
  }

  /** Deleting a claim just created under a fresh id gives back the store it was created in. */
  lemma CreateThenDeleteRestores(st: Store, claim: Claim)
    requires ClaimOf(st, claim.claimId).None? && CreateClaim(st, claim).Success?
    ensures DeleteClaim(CreateClaim(st, claim).value, claim.claimId) == Success(st)
  {
    var i := FindPolicy(st, claim.policyId).value;
    var p := st.policies[i];
    var p' := p.(claimedAmount := p.claimedAmount + claim.claimAmount);
    var st' := Store(st.policies[i := p'], st.claims + [claim]);
    assert CreateClaim(st, claim) == Success(st');
    FirstMatchAppend(st.claims, ClaimKey, claim, claim.claimId);
    assert FindClaim(st', claim.claimId) == Some(|st.claims|);
    FirstMatchReplace(st.policies, PolicyKey, i, p', claim.policyId);
    assert FindPolicy(st', claim.policyId) == Some(i);
    assert p'.(claimedAmount := p'.claimedAmount - claim.claimAmount) == p;
    assert st'.policies[i := p] == st.policies;
    assert RemoveAt(st'.claims, |st.claims|) == st.claims;
  }

  /** An update whose patch supplies nothing leaves a store within coverage exactly as it was. */
  lemma EmptyPatchChangesNothing(st: Store, claimId: string)
    requires WithinCoverage(st)
    requires ClaimOf(st, claimId).Some? && PolicyOf(st, ClaimOf(st, claimId).value.policyId).Some?
    ensures UpdateClaim(st, claimId, EmptyClaimPatch) == Success(st)
  {
    var k := FindClaim(st, claimId).value;
    var i := FindPolicy(st, st.claims[k].policyId).value;
    assert st.claims[k := PatchClaim(st.claims[k], EmptyClaimPatch)] == st.claims;
    assert st.policies[i := st.policies[i].(claimedAmount := st.policies[i].claimedAmount)] == st.policies;
  }

  /**
   A claim created under an id some claim already has is stored and charged, yet a query by
   that id still finds the older claim, so updates and deletes by id cannot reach it.
   */
  lemma DuplicateClaimIdIsShadowed(st: Store, claim: Claim)
    requires ClaimOf(st, claim.claimId).Some? && CreateClaim(st, claim).Success?
    ensures ClaimOf(CreateClaim(st, claim).value, claim.claimId) == ClaimOf(st, claim.claimId)
    ensures Charged(CreateClaim(st, claim).value.claims, claim.policyId)
         == Charged(st.claims, claim.policyId) + claim.claimAmount
  {
    FirstMatchAppend(st.claims, ClaimKey, claim, claim.claimId);
    ChargedAppend(st.claims, claim, claim.policyId);
  }
}

=== FILE: claims.dfy ===
/**
 The claim ledger of backend/router/router.js: creating, updating and deleting a claim,
 each as one atomic transition of the store that also keeps the charged policy's
 `claimedAmount` up to date.
 */
module ClaimOps {
  import opened Wrappers
  import opened Records
  import opened Lookup
  import opened Ledger

  /**
   Create a claim. The policy it names must exist, and the claim must fit in the headroom
   `amount - claimedAmount` left on it; then the claim is stored and the policy charged.
   The falsy-`claimedAmount` reset the source applies first is the identity here, since a
   missing or null `claimedAmount` is already 0. A failure leaves the store as it was.
   */
  function CreateClaim(st: Store, claim: Claim): (r: Result<Store, Error>)
    ensures PolicyOf(st, claim.policyId).None? ==> r == Failure(PolicyNotFound)
    ensures r.Success? ==>
      && |r.value.policies| == |st.policies|
      && forall j :: 0 <= j < |st.policies| && Some(j) != FindPolicy(st, claim.policyId) ==>
           r.value.policies[j] == st.policies[j]
    ensures PolicyOf(st, claim.policyId).Some? ==>
      var p := PolicyOf(st, claim.policyId).value;
      if claim.claimAmount > p.amount - p.claimedAmount then r == Failure(ExceedsLimit)
      else
        && r.Success?
        && r.value.claims == st.claims + [claim]
        && PolicyOf(r.value, claim.policyId) == Some(p.(claimedAmount := p.claimedAmount + claim.claimAmount))
        && r.value.policies[FindPolicy(st, claim.policyId).value] == PolicyOf(r.value, claim.policyId).value
    ensures r.Success? ==> forall id :: id != claim.policyId ==> PolicyOf(r.value, id) == PolicyOf(st, id)
  {
    match FindPolicy(st, claim.policyId)
    case None => Failure(PolicyNotFound)
    case Some(i) =>
      var p := st.policies[i];
      if claim.claimAmount > p.amount - p.claimedAmount then Failure(ExceedsLimit)
      else
        var p' := p.(claimedAmount := p.claimedAmount + claim.claimAmount);
        var st' := Store(st.policies[i := p'], st.claims + [claim]);
        PolicyOfReplaceInto(st, st', i, p');
        Success(st')
  }

  /**
   Update a claim with the fields a patch supplies. The claim and the policy it names
   must exist. The amount charged to the ledger is `patch.claimAmount || claimAmount`, so
   an absent or zero patch amount keeps the old amount; it must fit in the headroom
   `amount - claimedAmount + claimAmount` that refunding the old amount would leave. The
   policy's total then swaps the old amount for the charged one, and the stored claim
   receives the patch as given, whatever `policyId` or `claimAmount` it carries.
   */
  function UpdateClaim(st: Store, claimId: string, patch: ClaimPatch): (r: Result<Store, Error>)
    ensures ClaimOf(st, claimId).None? ==> r == Failure(ClaimNotFound)
    ensures ClaimOf(st, claimId).Some? && PolicyOf(st, ClaimOf(st, claimId).value.policyId).None? ==>
      r == Failure(PolicyNotFound)
    ensures r.Success? ==>
      && |r.value.policies| == |st.policies|
      && forall j :: 0 <= j < |st.policies| && Some(j) != FindPolicy(st, ClaimOf(st, claimId).value.policyId) ==>
           r.value.policies[j] == st.policies[j]
    ensures ClaimOf(st, claimId).Some? && PolicyOf(st, ClaimOf(st, claimId).value.policyId).Some? ==>
      var c := ClaimOf(st, claimId).value;
      var p := PolicyOf(st, c.policyId).value;
      var charge := OrElse(patch.claimAmount, c.claimAmount);
      if charge > p.amount - p.claimedAmount + c.claimAmount then r == Failure(ExceedsLimit)
      else
        && r.Success?
        && r.value.claims == st.claims[FindClaim(st, claimId).value := PatchClaim(c, patch)]
        && PolicyOf(r.value, c.policyId) == Some(p.(claimedAmount := p.claimedAmount - c.claimAmount + charge))
        && r.value.policies[FindPolicy(st, c.policyId).value] == PolicyOf(r.value, c.policyId).value
    ensures r.Success? ==>
      forall id :: id != ClaimOf(st, claimId).value.policyId ==> PolicyOf(r.value, id) == PolicyOf(st, id)
  {
    match FindClaim(st, claimId)
    case None => Failure(ClaimNotFound)
    case Some(k) =>
      var c := st.claims[k];
      match FindPolicy(st, c.policyId)
      case None => Failure(PolicyNotFound)
      case Some(i) =>
        var p := st.policies[i];
        var charge := OrElse(patch.claimAmount, c.claimAmount);
        if charge > p.amount - p.claimedAmount + c.claimAmount then Failure(ExceedsLimit)
        else
          var p' := p.(claimedAmount := p.claimedAmount - c.claimAmount + charge);
          var st' := Store(st.policies[i := p'], st.claims[k := PatchClaim(c, patch)]);
          PolicyOfReplaceInto(st, st', i, p');
          Success(st')
  }

  /**
   Delete a claim. The claim and the policy it names must exist; the policy's total is
   reduced by the claim's amount, with no floor at 0, and the claim is removed.
   */
  function DeleteClaim(st: Store, claimId: string): (r: Result<Store, Error>)
    ensures ClaimOf(st, claimId).None? ==> r == Failure(ClaimNotFound)
    ensures ClaimOf(st, claimId).Some? && PolicyOf(st, ClaimOf(st, claimId).value.policyId).None? ==>
      r == Failure(PolicyNotFound)
    ensures r.Success? ==>
      && |r.value.policies| == |st.policies|
      && forall j :: 0 <= j < |st.policies| && Some(j) != FindPolicy(st, ClaimOf(st, claimId).value.policyId) ==>
           r.value.policies[j] == st.policies[j]
    ensures ClaimOf(st, claimId).Some? && PolicyOf(st, ClaimOf(st, claimId).value.policyId).Some? ==>
      var c := ClaimOf(st, claimId).value;
      var p := PolicyOf(st, c.policyId).value;
      && r.Success?
      && r.value.claims == RemoveAt(st.claims, FindClaim(st, claimId).value)
      && PolicyOf(r.value, c.policyId) == Some(p.(claimedAmount := p.claimedAmount - c.claimAmount))
      && r.value.policies[FindPolicy(st, c.policyId).value] == PolicyOf(r.value, c.policyId).value
    ensures r.Success? ==>
      forall id :: id != ClaimOf(st, claimId).value.policyId ==> PolicyOf(r.value, id) == PolicyOf(st, id)
  {
    match FindClaim(st, claimId)
    case None => Failure(ClaimNotFound)
    case Some(k) =>
      var c := st.claims[k];
      match FindPolicy(st, c.policyId)
      case None => Failure(PolicyNotFound)
      case Some(i) =>
        var p := st.policies[i];
        var p' := p.(claimedAmount := p.claimedAmount - c.claimAmount);
        var st' := Store(st.policies[i := p'], RemoveAt(st.claims, k));
        PolicyOfReplaceInto(st, st', i, p');
        Success(st')
  }
}

=== FILE: defects.dfy ===
/**
 Where the operations as written break the ledger's invariants: each lemma names the
 inputs that do it, for every store they apply to.
 */
module Defects {
  import opened Wrappers
  import opened Records
  import opened Lookup
  import opened Ledger
  import opened ClaimOps
  import opened PolicyOps

  /**
   A patch that sets `claimAmount` to 0 is accepted, the ledger keeps charging the old
   amount (`0 || old` is `old`) while the stored claim now says 0, so the totals drift apart.
   This holds whatever `policyId` the patch carries, the claim's own included.
   */
  lemma ZeroPatchDesyncsLedger(st: Store, claimId: string, patch: ClaimPatch)
    requires Consistent(st) && WithinCoverage(st)
    requires ClaimOf(st, claimId).Some? && ClaimOf(st, claimId).value.claimAmount != 0
    requires PolicyOf(st, ClaimOf(st, claimId).value.policyId).Some?
    requires patch.claimAmount == Some(0)
    ensures UpdateClaim(st, claimId, patch).Success?
    ensures !Consistent(UpdateClaim(st, claimId, patch).value)
  {
    var st' := UpdateClaim(st, claimId, patch).value;
    var k := FindClaim(st, claimId).value;
    var c := st.claims[k];
    ChargedReplace(st.claims, k, PatchClaim(c, patch), c.policyId);
    assert PolicyOf(st', c.policyId).value.claimedAmount != Charged(st'.claims, c.policyId);
  }

  /**
   A patch that moves a claim to another policy is accepted whenever the amount it charges
   fits the old policy's headroom, but only the old policy is re-charged: it keeps paying
   for a claim that no longer names it.
   */
  lemma MovedClaimDesyncsLedger(st: Store, claimId: string, patch: ClaimPatch)
    requires Consistent(st)
    requires ClaimOf(st, claimId).Some? && ClaimOf(st, claimId).value.claimAmount != 0
    requires PolicyOf(st, ClaimOf(st, claimId).value.policyId).Some?
    requires
      var c := ClaimOf(st, claimId).value;
      var p := PolicyOf(st, c.policyId).value;
      OrElse(patch.claimAmount, c.claimAmount) <= p.amount - p.claimedAmount + c.claimAmount
    requires patch.policyId.Some? && patch.policyId.value != ClaimOf(st, claimId).value.policyId
    ensures UpdateClaim(st, claimId, patch).Success?
    ensures !Consistent(UpdateClaim(st, claimId, patch).value)
  {
    var st' := UpdateClaim(st, claimId, patch).value;
    var k := FindClaim(st, claimId).value;
    var c := st.claims[k];
    ChargedReplace(st.claims, k, PatchClaim(c, patch), c.policyId);
    assert PolicyOf(st', c.policyId).value.claimedAmount != Charged(st'.claims, c.policyId);
  }

  /** Nothing rejects a negative claim: on a policy under its ceiling it is always accepted. */
  lemma NegativeClaimIsAccepted(st: Store, claim: Claim)
    requires PolicyOf(st, claim.policyId).Some? && claim.claimAmount < 0
    requires PolicyOf(st, claim.policyId).value.claimedAmount <= PolicyOf(st, claim.policyId).value.amount
    ensures CreateClaim(st, claim).Success?
    ensures PolicyOf(CreateClaim(st, claim).value, claim.policyId).value.claimedAmount
          < PolicyOf(st, claim.policyId).value.claimedAmount
  {
  }

  /**
   On a store within coverage, deleting a claim keeps it within coverage exactly when the
   refund leaves its policy under the ceiling, which a negative claim on a fully used
   policy does not.
   */
  lemma DeleteClaimCoverageExactly(st: Store, claimId: string)
    requires WithinCoverage(st)
    requires ClaimOf(st, claimId).Some? && PolicyOf(st, ClaimOf(st, claimId).value.policyId).Some?
    ensures
      var c := ClaimOf(st, claimId).value;
      var p := PolicyOf(st, c.policyId).value;
      WithinCoverage(DeleteClaim(st, claimId).value) <==> p.claimedAmount - c.claimAmount <= p.amount
  {
    var c := ClaimOf(st, claimId).value;
    var st' := DeleteClaim(st, claimId).value;
    assert PolicyOf(st', c.policyId).Some?;
  }

  /** No floor at 0: refunding more than a policy has charged leaves it negative. */
  lemma DeleteClaimHasNoFloor(st: Store, claimId: string)
    requires ClaimOf(st, claimId).Some? && PolicyOf(st, ClaimOf(st, claimId).value.policyId).Some?
    requires PolicyOf(st, ClaimOf(st, claimId).value.policyId).value.claimedAmount < ClaimOf(st, claimId).value.claimAmount
    ensures DeleteClaim(st, claimId).Success?
    ensures PolicyOf(DeleteClaim(st, claimId).value, ClaimOf(st, claimId).value.policyId).value.claimedAmount < 0
  {
  }

  /** Lowering a policy's `amount` below what is charged against it is accepted. */
  lemma UpdatePolicyCanBreakCoverage(st: Store, policyId: string, patch: PolicyPatch)
    requires PolicyOf(st, policyId).Some?
    requires patch.policyId.None? && patch.claimedAmount.None?
    requires patch.amount.Some? && patch.amount.value < PolicyOf(st, policyId).value.claimedAmount
    ensures !WithinCoverage(UpdatePolicy(st, policyId, patch))
  {
    assert PolicyOf(UpdatePolicy(st, policyId, patch), policyId).Some?;
  }

  /** Overwriting `claimedAmount` with anything but the claims' total is accepted. */
  lemma UpdatePolicyCanBreakConsistency(st: Store, policyId: string, patch: PolicyPatch)
    requires PolicyOf(st, policyId).Some?
    requires patch.policyId.None?
    requires patch.claimedAmount.Some? && patch.claimedAmount.value != Charged(st.claims, policyId)
    ensures !Consistent(UpdatePolicy(st, policyId, patch))
  {
    assert PolicyOf(UpdatePolicy(st, policyId, patch), policyId).Some?;
  }

  /**
   Deleting a policy orphans the claims that name it: with unique policy ids, such a claim
   can be neither updated nor deleted afterwards.
   */
  lemma DeletePolicyOrphansClaims(st: Store, policyId: string, claimId: string, patch: ClaimPatch)
    requires UniquePolicyIds(st)
    requires ClaimOf(st, claimId).Some? && ClaimOf(st, claimId).value.policyId == policyId
    ensures ClaimOf(DeletePolicy(st, policyId), claimId) == ClaimOf(st, claimId)
    ensures DeleteClaim(DeletePolicy(st, policyId), claimId) == Failure(PolicyNotFound)
    ensures UpdateClaim(DeletePolicy(st, policyId), claimId, patch) == Failure(PolicyNotFound)
  {
  }

  /**
   Deleting a policy with charged claims and creating it again under the same id with the
   default `claimedAmount` forgets those claims: the new total is 0, theirs is not.
   */
  lemma RecreatedPolicyForgetsClaims(st: Store, input: PolicyInput)
    requires UniquePolicyIds(st)
    requires input.claimedAmount.None? && Charged(st.claims, input.policyId) != 0
    ensures !Consistent(CreatePolicy(DeletePolicy(st, input.policyId), input))
  {
    var st' := CreatePolicy(DeletePolicy(st, input.policyId), input);
    assert PolicyOf(st', input.policyId) == Some(NewPolicy(input));
  }

  /**
   A second policy created under an id already in use is hidden at first, and surfaces
   when the first is deleted; its own `claimedAmount` then stands for the claims, which it
   never recorded.
   */
  lemma ShadowedPolicyResurfaces(st: Store, input: PolicyInput)
    requires UniquePolicyIds(st) && PolicyOf(st, input.policyId).Some?
    ensures PolicyOf(CreatePolicy(st, input), input.policyId) == PolicyOf(st, input.policyId)
    ensures PolicyOf(DeletePolicy(CreatePolicy(st, input), input.policyId), input.policyId) == Some(NewPolicy(input))
    ensures NewPolicy(input).claimedAmount != Charged(st.claims, input.policyId) ==>
      !Consistent(DeletePolicy(CreatePolicy(st, input), input.policyId))
  {
    var id := input.policyId;
    var ps := st.policies;
    var i := FindPolicy(st, id).value;
    var ps1 := ps + [NewPolicy(input)];
    assert CreatePolicy(st, input).policies == ps1;
    FirstMatchAppend(ps, PolicyKey, NewPolicy(input), id);
    var t := RemoveAt(ps1, i);
    assert DeletePolicy(CreatePolicy(st, input), id).policies == t;
    forall q | 0 <= q < |ps| - 1 ensures PolicyKey(t[q]) != id {
      RemoveAtIndex(ps1, i, q);
    }
    RemoveAtIndex(ps1, i, |ps| - 1);
    FirstMatchIs(t, PolicyKey, id, |ps| - 1);
  }
}

=== FILE: intended.dfy ===
/**
 The update the ledger evidently intends: the amount charged is the amount stored (an
 absent patch amount keeps the old one, a 0 is taken as 0), and a claim moved to another
 policy is refunded to the old policy and charged to the new one, which must exist and
 have the headroom.
 */
module IntendedUpdate {
  import opened Wrappers
  import opened Records
  import opened Lookup
  import opened Ledger
  import opened ClaimOps

  /** The corrected update: the claim is re-charged for the amount it stores, on the policy it names afterwards. */
  function UpdateClaimIntended(st: Store, claimId: string, patch: ClaimPatch): (r: Result<Store, Error>)
    ensures ClaimOf(st, claimId).None? ==> r == Failure(ClaimNotFound)
    ensures ClaimOf(st, claimId).Some? && PolicyOf(st, ClaimOf(st, claimId).value.policyId).None? ==>
      r == Failure(PolicyNotFound)
    ensures ClaimOf(st, claimId).Some? ==>
      var c' := PatchClaim(ClaimOf(st, claimId).value, patch);
      PolicyOf(st, c'.policyId).None? ==> r == Failure(PolicyNotFound)
    ensures ClaimOf(st, claimId).Some? ==>
      var c := ClaimOf(st, claimId).value;
      var c' := PatchClaim(c, patch);
      PolicyOf(st, c.policyId).Some? && PolicyOf(st, c'.policyId).Some? ==>
        var p, q := PolicyOf(st, c.policyId).value, PolicyOf(st, c'.policyId).value;
        var headroom := if c'.policyId == c.policyId then p.amount - p.claimedAmount + c.claimAmount
                        else q.amount - q.claimedAmount;
        && (c'.claimAmount > headroom ==> r == Failure(ExceedsLimit))
        && (c'.claimAmount <= headroom ==> r.Success?)
    ensures r.Success? ==> r.value.claims == st.claims[FindClaim(st, claimId).value := PatchClaim(ClaimOf(st, claimId).value, patch)]
  {
    match FindClaim(st, claimId)
    case None => Failure(ClaimNotFound)
    case Some(k) =>
      var c := st.claims[k];
      var c' := PatchClaim(c, patch);
      match FindPolicy(st, c.policyId)
      case None => Failure(PolicyNotFound)
      case Some(i) =>
        var p := st.policies[i];
        if c'.policyId == c.policyId then
          if c'.claimAmount > p.amount - p.claimedAmount + c.claimAmount then Failure(ExceedsLimit)
          else
            var p' := p.(claimedAmount := p.claimedAmount - c.claimAmount + c'.claimAmount);
            Success(Store(st.policies[i := p'], st.claims[k := c']))
        else
          match FindPolicy(st, c'.policyId)
          case None => Failure(PolicyNotFound)
          case Some(j) =>
            var q := st.policies[j];
            if c'.claimAmount > q.amount - q.claimedAmount then Failure(ExceedsLimit)
            else
              var refunded := st.policies[i := p.(claimedAmount := p.claimedAmount - c.claimAmount)];
              Success(Store(refunded[j := q.(claimedAmount := q.claimedAmount + c'.claimAmount)], st.claims[k := c']))
  }

  /** On every patch that neither zeroes the amount nor moves the claim, it is the source's update. */
  lemma IntendedAgreesWithSource(st: Store, claimId: string, patch: ClaimPatch)
    requires patch.claimAmount != Some(0)
    requires ClaimOf(st, claimId).Some? ==>
      patch.policyId.None? || patch.policyId == Some(ClaimOf(st, claimId).value.policyId)
    ensures UpdateClaimIntended(st, claimId, patch) == UpdateClaim(st, claimId, patch)
  {
    match FindClaim(st, claimId)
    case None =>
    case Some(k) =>
      var c := st.claims[k];
      assert OrElse(patch.claimAmount, c.claimAmount) == PatchClaim(c, patch).claimAmount;
      assert PatchClaim(c, patch).policyId == c.policyId;
      match FindPolicy(st, c.policyId)
      case None =>
      case Some(i) =>
        IntendedKeptStore(st, claimId, patch, k, i);
  }

  /**
   A successful update touches at most two policy documents: the one the claim's old
   policy id finds and the one its patched policy id finds. Every other document, hidden
   duplicates included, stays where and as it was.
   */
  lemma IntendedLeavesOtherPolicies(st: Store, claimId: string, patch: ClaimPatch)
    requires UpdateClaimIntended(st, claimId, patch).Success?
    ensures
      var r := UpdateClaimIntended(st, claimId, patch).value;
      var c := ClaimOf(st, claimId).value;
      && |r.policies| == |st.policies|
      && forall j ::
           0 <= j < |st.policies| && Some(j) != FindPolicy(st, c.policyId) &&
           Some(j) != FindPolicy(st, PatchClaim(c, patch).policyId) ==>
           r.policies[j] == st.policies[j]
  {
    var k := FindClaim(st, claimId).value;
    var c := st.claims[k];
    var i := FindPolicy(st, c.policyId).value;
    if PatchClaim(c, patch).policyId == c.policyId {
      IntendedKeptStore(st, claimId, patch, k, i);
    } else {
      IntendedMovedStore(st, claimId, patch, k, i, FindPolicy(st, PatchClaim(c, patch).policyId).value);
    }
  }

  /**
   How `st'` stands to `st` after claim `c` is rewritten as `c'`: the same policies stay
   reachable with the same coverage, each total swaps `c`'s share for `c'`'s, and the
   policy `c'` names ends under its ceiling.
   */
  ghost predicate Recharged(st: Store, st': Store, c: Claim, c': Claim) {
    && (forall id :: PolicyOf(st', id).Some? <==> PolicyOf(st, id).Some?)
    && (forall id :: PolicyOf(st', id).Some? ==>
          && PolicyOf(st', id).value.amount == PolicyOf(st, id).value.amount
          && PolicyOf(st', id).value.claimedAmount
             == PolicyOf(st, id).value.claimedAmount - Share(c, id) + Share(c', id))
    && PolicyOf(st', c'.policyId).Some?
    && PolicyOf(st', c'.policyId).value.claimedAmount <= PolicyOf(st', c'.policyId).value.amount
  }

  /** A successful intended update re-charges the policies for the patched claim. */
  lemma IntendedCharges(st: Store, claimId: string, patch: ClaimPatch)
    requires UpdateClaimIntended(st, claimId, patch).Success?
    ensures Recharged(st, UpdateClaimIntended(st, claimId, patch).value,
                      ClaimOf(st, claimId).value, PatchClaim(ClaimOf(st, claimId).value, patch))
  {
    var c := ClaimOf(st, claimId).value;
    if PatchClaim(c, patch).policyId == c.policyId {
      IntendedChargesKept(st, claimId, patch);
    } else {
      IntendedChargesMoved(st, claimId, patch);
    }
  }

  /** `IntendedCharges` for a patch that keeps the claim on its policy. */
  lemma IntendedChargesKept(st: Store, claimId: string, patch: ClaimPatch)
    requires UpdateClaimIntended(st, claimId, patch).Success?
    requires PatchClaim(ClaimOf(st, claimId).value, patch).policyId == ClaimOf(st, claimId).value.policyId
    ensures Recharged(st, UpdateClaimIntended(st, claimId, patch).value,
                      ClaimOf(st, claimId).value, PatchClaim(ClaimOf(st, claimId).value, patch))
  {
    var k := FindClaim(st, claimId).value;
    var c := st.claims[k];
    var c' := PatchClaim(c, patch);
    var i := FindPolicy(st, c.policyId).value;
    IntendedKeptStore(st, claimId, patch, k, i);
    KeptRecharged(st, UpdateClaimIntended(st, claimId, patch).value, i, c, c');
  }

  /** Swapping `c` for `c'` in the total of the policy `c` names, in place, re-charges the store. */
  lemma KeptRecharged(st: Store, st': Store, i: nat, c: Claim, c': Claim)
    requires FindPolicy(st, c.policyId) == Some(i) && c'.policyId == c.policyId
    requires c'.claimAmount <= st.policies[i].amount - st.policies[i].claimedAmount + c.claimAmount
    requires
      var p := st.policies[i];
      st'.policies == st.policies[i := p.(claimedAmount := p.claimedAmount - c.claimAmount + c'.claimAmount)]
    ensures Recharged(st, st', c, c')
  {
    var p := st.policies[i];
    var p' := p.(claimedAmount := p.claimedAmount - c.claimAmount + c'.claimAmount);
    assert PolicyOf(st, c.policyId) == Some(p);
    PolicyOfReplaceInto(st, st', i, p');
    forall id
      ensures PolicyOf(st', id).Some? <==> PolicyOf(st, id).Some?
      ensures PolicyOf(st', id).Some? ==>
        && PolicyOf(st', id).value.amount == PolicyOf(st, id).value.amount
        && PolicyOf(st', id).value.claimedAmount
           == PolicyOf(st, id).value.claimedAmount - Share(c, id) + Share(c', id)
    {
      if id == c.policyId {
        assert PolicyOf(st', id) == Some(p');
      } else {
        assert PolicyOf(st', id) == PolicyOf(st, id);
      }
    }
    assert PolicyOf(st', c'.policyId) == Some(p');
  }

  /** `IntendedCharges` for a patch that moves the claim to another policy. */
  lemma IntendedChargesMoved(st: Store, claimId: string, patch: ClaimPatch)
    requires UpdateClaimIntended(st, claimId, patch).Success?
    requires PatchClaim(ClaimOf(st, claimId).value, patch).policyId != ClaimOf(st, claimId).value.policyId
    ensures Recharged(st, UpdateClaimIntended(st, claimId, patch).value,
                      ClaimOf(st, claimId).value, PatchClaim(ClaimOf(st, claimId).value, patch))
  {
    var k := FindClaim(st, claimId).value;
    var c := st.claims[k];
    var c' := PatchClaim(c, patch);
    var i := FindPolicy(st, c.policyId).value;
    var j := FindPolicy(st, c'.policyId).value;
    IntendedMovedStore(st, claimId, patch, k, i, j);
    MovedRecharged(st, UpdateClaimIntended(st, claimId, patch).value, i, j, c, c');
  }

  /**
   Refunding `c` to the policy it names and charging `c'` to the other one, both in place,
   re-charges the store.
   */
  lemma MovedRecharged(st: Store, st': Store, i: nat, j: nat, c: Claim, c': Claim)
    requires c.policyId != c'.policyId
    requires FindPolicy(st, c.policyId) == Some(i) && FindPolicy(st, c'.policyId) == Some(j)
    requires c'.claimAmount <= st.policies[j].amount - st.policies[j].claimedAmount
    requires
      var p, q := st.policies[i], st.policies[j];
      st'.policies == st.policies[i := p.(claimedAmount := p.claimedAmount - c.claimAmount)]
                                 [j := q.(claimedAmount := q.claimedAmount + c'.claimAmount)]
    ensures Recharged(st, st', c, c')
  {
    var p, q := st.policies[i], st.policies[j];
    var p' := p.(claimedAmount := p.claimedAmount - c.claimAmount);
    var q' := q.(claimedAmount := q.claimedAmount + c'.claimAmount);
    assert PolicyOf(st, c.policyId) == Some(p) && PolicyOf(st, c'.policyId) == Some(q);
    MovedCharges(st, st', i, j, p', q');
    forall id
      ensures PolicyOf(st', id).Some? <==> PolicyOf(st, id).Some?
      ensures PolicyOf(st', id).Some? ==>
        && PolicyOf(st', id).value.amount == PolicyOf(st, id).value.amount
        && PolicyOf(st', id).value.claimedAmount
           == PolicyOf(st, id).value.claimedAmount - Share(c, id) + Share(c', id)
    {
      if id == c.policyId {
        assert PolicyOf(st', id) == Some(p');
      } else if id == c'.policyId {
        assert PolicyOf(st', id) == Some(q');
      } else {
        assert PolicyOf(st', id) == PolicyOf(st, id);
      }
    }
    assert PolicyOf(st', c'.policyId) == Some(q');
  }

  /**
   Re-charging, in place, two different policies a query finds changes those two lookups
   only, whatever the claims.
   */
  lemma MovedCharges(st: Store, st': Store, i: nat, j: nat, p: Policy, q: Policy)
    requires i < |st.policies| && j < |st.policies| && i != j
    requires p.policyId == st.policies[i].policyId && q.policyId == st.policies[j].policyId
    requires FindPolicy(st, p.policyId) == Some(i) && FindPolicy(st, q.policyId) == Some(j)
    requires st'.policies == st.policies[i := p][j := q]
    ensures forall id ::
      PolicyOf(st', id) == if id == p.policyId then Some(p) else if id == q.policyId then Some(q) else PolicyOf(st, id)
  {
    var st1 := st.(policies := st.policies[i := p]);
    PolicyOfReplaceAll(st, i, p);
    FirstMatchReplace(st.policies, PolicyKey, i, p, q.policyId);
    PolicyOfReplaceInto(st1, st', j, q);
  }

  /** Whatever the patch, a successful update keeps every total in step. */
  lemma IntendedKeepsConsistent(st: Store, claimId: string, patch: ClaimPatch)
    requires Consistent(st) && UpdateClaimIntended(st, claimId, patch).Success?
    ensures Consistent(UpdateClaimIntended(st, claimId, patch).value)
  {
    var st' := UpdateClaimIntended(st, claimId, patch).value;
    var k := FindClaim(st, claimId).value;
    var c' := PatchClaim(st.claims[k], patch);
    IntendedCharges(st, claimId, patch);
    forall id | PolicyOf(st', id).Some?
      ensures PolicyOf(st', id).value.claimedAmount == Charged(st'.claims, id)
    {
      ChargedReplace(st.claims, k, c', id);
    }
  }

  /** With non-negative amounts, a successful update keeps every policy under its ceiling. */
  lemma IntendedKeepsCoverage(st: Store, claimId: string, patch: ClaimPatch)
    requires WithinCoverage(st) && NonNegativeClaims(st)
    requires UpdateClaimIntended(st, claimId, patch).Success?
    ensures WithinCoverage(UpdateClaimIntended(st, claimId, patch).value)
  {
    var st' := UpdateClaimIntended(st, claimId, patch).value;
    var k := FindClaim(st, claimId).value;
    var c := st.claims[k];
    var c' := PatchClaim(c, patch);
    assert c.claimAmount >= 0;
    IntendedCharges(st, claimId, patch);
    forall id | PolicyOf(st', id).Some?
      ensures PolicyOf(st', id).value.claimedAmount <= PolicyOf(st', id).value.amount
    {
      if id != c'.policyId {
        assert Share(c', id) == 0;
      }
    }
  }

  /**
   A zero patch, the input that breaks the source's update, whether it leaves `policyId`
   out or restates it, is accepted on a store within
   coverage with non-negative claims: the claim stores 0, its policy is refunded the old
   amount, and the totals stay in step.
   */
  lemma IntendedZeroPatchKeepsConsistent(st: Store, claimId: string, patch: ClaimPatch, c: Claim, p: Policy)
    requires WithinCoverage(st) && NonNegativeClaims(st)
    requires ClaimOf(st, claimId) == Some(c) && PolicyOf(st, c.policyId) == Some(p)
    requires patch.claimAmount == Some(0) && (patch.policyId.None? || patch.policyId == Some(c.policyId))
    ensures UpdateClaimIntended(st, claimId, patch).Success?
    ensures UpdateClaimIntended(st, claimId, patch).value.claims[FindClaim(st, claimId).value].claimAmount == 0
    ensures PolicyOf(UpdateClaimIntended(st, claimId, patch).value, c.policyId)
         == Some(p.(claimedAmount := p.claimedAmount - c.claimAmount))
    ensures Consistent(st) ==> Consistent(UpdateClaimIntended(st, claimId, patch).value)
  {
    IntendedZeroPatchStore(st, claimId, patch, c, p);
    if Consistent(st) {
      IntendedKeepsConsistent(st, claimId, patch);
    }
  }

  /** The store a zero patch leaves: the claim holds 0 and its policy is refunded in place. */
  lemma IntendedZeroPatchStore(st: Store, claimId: string, patch: ClaimPatch, c: Claim, p: Policy)
    requires WithinCoverage(st) && NonNegativeClaims(st)
    requires ClaimOf(st, claimId) == Some(c) && PolicyOf(st, c.policyId) == Some(p)
    requires patch.claimAmount == Some(0) && (patch.policyId.None? || patch.policyId == Some(c.policyId))
    ensures UpdateClaimIntended(st, claimId, patch).Success?
    ensures UpdateClaimIntended(st, claimId, patch).value.claims[FindClaim(st, claimId).value].claimAmount == 0
    ensures PolicyOf(UpdateClaimIntended(st, claimId, patch).value, c.policyId)
         == Some(p.(claimedAmount := p.claimedAmount - c.claimAmount))
  {
    var k := FindClaim(st, claimId).value;
    var i := FindPolicy(st, c.policyId).value;
    var p' := p.(claimedAmount := p.claimedAmount - c.claimAmount);
    assert c == st.claims[k] && p == st.policies[i];
    assert c.claimAmount >= 0 && p.claimedAmount <= p.amount;
    assert PatchClaim(c, patch).claimAmount == 0;
    IntendedKeptStore(st, claimId, patch, k, i);
    PolicyOfReplaceInto(st, UpdateClaimIntended(st, claimId, patch).value, i, p');
  }

  /**
   A move to an existing policy `q` with the headroom for the patched amount is accepted:
   `q` is charged the patched amount and the old policy `p` is refunded the old one.
   */
  lemma IntendedMoveCharges(st: Store, claimId: string, patch: ClaimPatch, c: Claim, p: Policy, q: Policy)
    requires ClaimOf(st, claimId) == Some(c) && PolicyOf(st, c.policyId) == Some(p)
    requires patch.policyId.Some? && patch.policyId.value != c.policyId
    requires PolicyOf(st, patch.policyId.value) == Some(q)
    requires PatchClaim(c, patch).claimAmount <= q.amount - q.claimedAmount
    ensures UpdateClaimIntended(st, claimId, patch).Success?
    ensures PolicyOf(UpdateClaimIntended(st, claimId, patch).value, q.policyId)
         == Some(q.(claimedAmount := q.claimedAmount + PatchClaim(c, patch).claimAmount))
    ensures PolicyOf(UpdateClaimIntended(st, claimId, patch).value, c.policyId)
         == Some(p.(claimedAmount := p.claimedAmount - c.claimAmount))
  {
    assert UpdateClaimIntended(st, claimId, patch).Success?;
    var k := FindClaim(st, claimId).value;
    var i := FindPolicy(st, c.policyId).value;
    var j := FindPolicy(st, q.policyId).value;
    assert c == st.claims[k] && p == st.policies[i] && q == st.policies[j];
    IntendedMovedLookups(st, claimId, patch, k, i, j, c, p, q);
  }

  /**
   After a successful move of the claim at `k` from the policy at `i` to the one at `j`,
   the new policy carries the patched amount and the old one has lost the old amount.
   */
  lemma IntendedMovedLookups(st: Store, claimId: string, patch: ClaimPatch, k: nat, i: nat, j: nat,
                             c: Claim, p: Policy, q: Policy)
    requires FindClaim(st, claimId) == Some(k) && k < |st.claims| && c == st.claims[k]
    requires FindPolicy(st, c.policyId) == Some(i) && i < |st.policies| && p == st.policies[i]
    requires FindPolicy(st, PatchClaim(c, patch).policyId) == Some(j) && j < |st.policies| && q == st.policies[j]
    requires PatchClaim(c, patch).policyId != c.policyId
    requires UpdateClaimIntended(st, claimId, patch).Success?
    ensures PolicyOf(UpdateClaimIntended(st, claimId, patch).value, q.policyId)
         == Some(q.(claimedAmount := q.claimedAmount + PatchClaim(c, patch).claimAmount))
    ensures PolicyOf(UpdateClaimIntended(st, claimId, patch).value, c.policyId)
         == Some(p.(claimedAmount := p.claimedAmount - c.claimAmount))
  {
    var p' := p.(claimedAmount := p.claimedAmount - c.claimAmount);
    var q' := q.(claimedAmount := q.claimedAmount + PatchClaim(c, patch).claimAmount);
    IntendedMovedStore(st, claimId, patch, k, i, j);
    MovedCharges(st, UpdateClaimIntended(st, claimId, patch).value, i, j, p', q');
  }

  /**
   The store a successful move leaves: the target had the headroom, both policies are
   re-charged in place, and the claim is rewritten.
   */
  lemma IntendedMovedStore(st: Store, claimId: string, patch: ClaimPatch, k: nat, i: nat, j: nat)
    requires FindClaim(st, claimId) == Some(k) && k < |st.claims|
    requires FindPolicy(st, st.claims[k].policyId) == Some(i) && i < |st.policies|
    requires FindPolicy(st, PatchClaim(st.claims[k], patch).policyId) == Some(j) && j < |st.policies|
    requires PatchClaim(st.claims[k], patch).policyId != st.claims[k].policyId
    ensures UpdateClaimIntended(st, claimId, patch).Success? ==>
      var c := st.claims[k];
      var p, q := st.policies[i], st.policies[j];
      && PatchClaim(c, patch).claimAmount <= q.amount - q.claimedAmount
      && UpdateClaimIntended(st, claimId, patch).value
      == Store(st.policies[i := p.(claimedAmount := p.claimedAmount - c.claimAmount)]
                          [j := q.(claimedAmount := q.claimedAmount + PatchClaim(c, patch).claimAmount)],
               st.claims[k := PatchClaim(c, patch)])
  {
  }

  /**
   The update of a claim that stays on its policy succeeds exactly when the patched amount
   fits the headroom the refund leaves, and then re-charges that policy in place.
   */
  lemma IntendedKeptStore(st: Store, claimId: string, patch: ClaimPatch, k: nat, i: nat)
    requires FindClaim(st, claimId) == Some(k) && k < |st.claims|
    requires FindPolicy(st, st.claims[k].policyId) == Some(i) && i < |st.policies|
    requires PatchClaim(st.claims[k], patch).policyId == st.claims[k].policyId
    ensures
      var c := st.claims[k];
      var c' := PatchClaim(c, patch);
      var p := st.policies[i];
      && (UpdateClaimIntended(st, claimId, patch).Success?
          <==> c'.claimAmount <= p.amount - p.claimedAmount + c.claimAmount)
      && (UpdateClaimIntended(st, claimId, patch).Success? ==>
            UpdateClaimIntended(st, claimId, patch).value
            == Store(st.policies[i := p.(claimedAmount := p.claimedAmount - c.claimAmount + c'.claimAmount)],
                     st.claims[k := c']))
  {
  }
}

=== FILE: ledger.dfy ===
/**
 The store the claim ledger works on: the policy and claim collections, the lookups the
 operations perform, the total each policy should carry, and the two invariants the
 ledger is meant to keep.
 */
module Ledger {
  import opened Wrappers
  import opened Records
  import opened Lookup

  /** Both collections, each in insertion order. */
  datatype Store = Store(policies: seq<Policy>, claims: seq<Claim>)

  /** Why a claim operation refuses to change the store. */
  datatype Error = PolicyNotFound | ClaimNotFound | ExceedsLimit

  /** The field a policy query matches on. */
  function PolicyKey(p: Policy): string { p.policyId }

  /** The field a claim query matches on. */
  function ClaimKey(c: Claim): string { c.claimId }

  /** Where the policy a query by `policyId` returns sits in the collection. */
  function FindPolicy(st: Store, policyId: string): Option<nat> {
    FirstMatch(st.policies, PolicyKey, policyId)
  }

  /** The policy a query by `policyId` returns. */
  function PolicyOf(st: Store, policyId: string): (r: Option<Policy>)
    ensures r.Some? ==> r.value.policyId == policyId
    ensures r.None? <==> forall j :: 0 <= j < |st.policies| ==> st.policies[j].policyId != policyId
  {
    match FindPolicy(st, policyId)
    case None => None
    case Some(i) => Some(st.policies[i])
  }

  /** Where the claim a query by `claimId` returns sits in the collection. */
  function FindClaim(st: Store, claimId: string): Option<nat> {
    FirstMatch(st.claims, ClaimKey, claimId)
  }

  /** The claim a query by `claimId` returns: the oldest one when several share the id. */
  function ClaimOf(st: Store, claimId: string): (r: Option<Claim>)
    ensures r.Some? ==> r.value.claimId == claimId
    ensures r.None? <==> forall j :: 0 <= j < |st.claims| ==> st.claims[j].claimId != claimId
  {
    match FindClaim(st, claimId)
    case None => None
    case Some(k) => Some(st.claims[k])
  }

  /** What claim `c` charges against the policy `policyId`. */
  function Share(c: Claim, policyId: string): int {
    if c.policyId == policyId then c.claimAmount else 0
  }

  /** The sum of `claimAmount` over the claims that name `policyId`. */
  function Charged(claims: seq<Claim>, policyId: string): int
    decreases |claims|
  {
    if |claims| == 0 then 0 else Share(claims[0], policyId) + Charged(claims[1..], policyId)
  }

  /** Every policy a query can reach records exactly what its claims add up to. */
  ghost predicate Consistent(st: Store) {
    forall id :: PolicyOf(st, id).Some? ==> PolicyOf(st, id).value.claimedAmount == Charged(st.claims, id)
  }

  /** No policy a query can reach has more charged against it than it covers. */
  ghost predicate WithinCoverage(st: Store) {
    forall id :: PolicyOf(st, id).Some? ==> PolicyOf(st, id).value.claimedAmount <= PolicyOf(st, id).value.amount
  }

  /** Every stored claim is for a non-negative amount. */
  ghost predicate NonNegativeClaims(st: Store) {
    forall k :: 0 <= k < |st.claims| ==> st.claims[k].claimAmount >= 0
  }

  /** No two policy documents share a `policyId`. */
  ghost predicate UniquePolicyIds(st: Store) {
    UniqueKeys(st.policies, PolicyKey)
  }

  /** The total over two runs of claims is the sum of their totals. */
  lemma {:induction false} ChargedConcat(a: seq<Claim>, b: seq<Claim>, policyId: string)
    ensures Charged(a + b, policyId) == Charged(a, policyId) + Charged(b, policyId)
    decreases |a|
  {
    if |a| == 0 {
      assert a + b == b;
    } else {
      assert (a + b)[1..] == a[1..] + b;
      ChargedConcat(a[1..], b, policyId);
    }
  }

  /** Appending a claim adds its share to each policy's total. */
  lemma ChargedAppend(claims: seq<Claim>, c: Claim, policyId: string)
    ensures Charged(claims + [c], policyId) == Charged(claims, policyId) + Share(c, policyId)
  {
    ChargedConcat(claims, [c], policyId);
    assert [c][1..] == [];
  }

  /** Overwriting a claim swaps its old share for the new one in each policy's total. */
  lemma ChargedReplace(claims: seq<Claim>, k: nat, c: Claim, policyId: string)
    requires k < |claims|
    ensures Charged(claims[k := c], policyId)
         == Charged(claims, policyId) - Share(claims[k], policyId) + Share(c, policyId)
  {
    var pre, post := claims[..k], claims[k + 1..];
    assert claims == pre + [claims[k]] + post;
    assert claims[k := c] == pre + [c] + post;
    ChargedConcat(pre + [claims[k]], post, policyId);
    ChargedConcat(pre + [c], post, policyId);
    ChargedAppend(pre, claims[k], policyId);
    ChargedAppend(pre, c, policyId);
  }

  /** Removing a claim takes its share out of each policy's total. */
  lemma ChargedRemove(claims: seq<Claim>, k: nat, policyId: string)
    requires k < |claims|
    ensures Charged(RemoveAt(claims, k), policyId) == Charged(claims, policyId) - Share(claims[k], policyId)
  {
    var pre, post := claims[..k], claims[k + 1..];
    assert claims == pre + [claims[k]] + post;
    ChargedConcat(pre + [claims[k]], post, policyId);
    ChargedConcat(pre, post, policyId);
    ChargedAppend(pre, claims[k], policyId);
  }

  /** Overwriting the policy a query finds, keeping its id, changes that one lookup only. */
  lemma PolicyOfReplace(st: Store, i: nat, p: Policy, id: string)
    requires i < |st.policies| && p.policyId == st.policies[i].policyId
    ensures PolicyOf(st.(policies := st.policies[i := p]), id)
         == if FindPolicy(st, id) == Some(i) then Some(p) else PolicyOf(st, id)
  {
    FirstMatchReplace(st.policies, PolicyKey, i, p, id);
  }

  /** `PolicyOfReplace` for every id at once. */
  lemma PolicyOfReplaceAll(st: Store, i: nat, p: Policy)
    requires i < |st.policies| && p.policyId == st.policies[i].policyId
    ensures forall id :: PolicyOf(st.(policies := st.policies[i := p]), id)
                      == if FindPolicy(st, id) == Some(i) then Some(p) else PolicyOf(st, id)
  {
    forall id {
      PolicyOfReplace(st, i, p, id);
    }
  }

  /** `PolicyOfReplaceAll` for any store holding the replaced policies, whatever its claims. */
  lemma PolicyOfReplaceInto(st: Store, st': Store, i: nat, p: Policy)
    requires i < |st.policies| && p.policyId == st.policies[i].policyId
    requires st'.policies == st.policies[i := p]
    ensures forall id :: PolicyOf(st', id) == if FindPolicy(st, id) == Some(i) then Some(p) else PolicyOf(st, id)
  {
    forall id
      ensures PolicyOf(st', id) == if FindPolicy(st, id) == Some(i) then Some(p) else PolicyOf(st, id)
    {
      PolicyOfReplace(st, i, p, id);
      assert FindPolicy(st', id) == FindPolicy(st.(policies := st.policies[i := p]), id);
    }
  }

  /** Appending a policy changes only the lookup of an id no earlier policy had. */
  lemma PolicyOfAppend(st: Store, p: Policy, id: string)
    ensures PolicyOf(st.(policies := st.policies + [p]), id)
         == if PolicyOf(st, id).None? && p.policyId == id then Some(p) else PolicyOf(st, id)
  {
    FirstMatchAppend(st.policies, PolicyKey, p, id);
  }

  /** `PolicyOfAppend` for every id at once. */
  lemma PolicyOfAppendAll(st: Store, p: Policy)
    ensures forall id :: PolicyOf(st.(policies := st.policies + [p]), id)
                      == if PolicyOf(st, id).None? && p.policyId == id then Some(p) else PolicyOf(st, id)
  {
    forall id {
      PolicyOfAppend(st, p, id);
    }
  }

  /** Removing the policy a query finds for `policyId` leaves the lookups of other ids alone. */
  lemma PolicyOfRemoveOther(st: Store, i: nat, id: string)
    requires i < |st.policies| && st.policies[i].policyId != id
    ensures PolicyOf(st.(policies := RemoveAt(st.policies, i)), id) == PolicyOf(st, id)
  {
    match FindPolicy(st, id)
    case None =>
      FirstMatchRemoveMissing(st.policies, PolicyKey, i, id);
    case Some(j) =>
      FirstMatchRemoveOther(st.policies, PolicyKey, i, id, j);
      RemoveAtIndex(st.policies, i, if j < i then j else j - 1);
  }

  /** `PolicyOfRemoveOther` for every other id at once. */
  lemma PolicyOfRemoveOtherAll(st: Store, i: nat)
    requires i < |st.policies|
    ensures forall id :: id != st.policies[i].policyId ==>
      PolicyOf(st.(policies := RemoveAt(st.policies, i)), id) == PolicyOf(st, id)
  {
    forall id | id != st.policies[i].policyId {
      PolicyOfRemoveOther(st, i, id);
    }
  }

  /** With unique policy ids, removing a policy leaves its id finding nothing. */
  lemma PolicyOfRemoveSelf(st: Store, i: nat)
    requires i < |st.policies|
    ensures UniquePolicyIds(st) ==>
      PolicyOf(st.(policies := RemoveAt(st.policies, i)), st.policies[i].policyId).None?
  {
    if UniquePolicyIds(st) {
      FirstMatchRemoveUnique(st.policies, PolicyKey, i);
    }
  }
}

=== FILE: lookup.dfy ===
/**
 A document collection kept in insertion order, and the lookup a query by one key field
 performs on it: the first document whose key matches.
 */
module Lookup {
  import opened Wrappers

  /** The index of the first element of `s` whose key is `id`, or `None` when no key is. */
  function FirstMatch<T>(s: seq<T>, key: T -> string, id: string): (r: Option<nat>)
    ensures r.Some? ==> r.value < |s| && key(s[r.value]) == id
    ensures r.Some? ==> forall j :: 0 <= j < r.value ==> key(s[j]) != id
    ensures r.None? <==> forall j :: 0 <= j < |s| ==> key(s[j]) != id
    decreases |s|
  {
    if |s| == 0 then None
    else if key(s[0]) == id then Some(0)
    else match FirstMatch(s[1..], key, id)
      case None => None
      case Some(k) => Some(k + 1)
  }

  /** `s` without its element at index `i`. */
  function RemoveAt<T>(s: seq<T>, i: nat): (r: seq<T>)
    requires i < |s|
    ensures |r| == |s| - 1
    ensures forall j :: 0 <= j < i ==> r[j] == s[j]
    ensures forall j :: i <= j < |r| ==> r[j] == s[j + 1]
  {
    s[..i] + s[i + 1..]
  }

  /** Removing an element takes exactly that element out of the multiset of elements. */
  lemma RemoveAtMultiset<T>(s: seq<T>, i: nat)
    requires i < |s|
    ensures multiset(RemoveAt(s, i)) + multiset{s[i]} == multiset(s)
  {
    assert s == s[..i] + [s[i]] + s[i + 1..];
  }

  /** No two elements share a key. */
  ghost predicate UniqueKeys<T>(s: seq<T>, key: T -> string) {
    forall a, b :: 0 <= a < b < |s| ==> key(s[a]) != key(s[b])
  }

  /** The contract of `FirstMatch` pins its result down: the first index with the key. */
  lemma FirstMatchIs<T>(s: seq<T>, key: T -> string, id: string, j: nat)
    requires j < |s| && key(s[j]) == id
    requires forall q :: 0 <= q < j ==> key(s[q]) != id
    ensures FirstMatch(s, key, id) == Some(j)
  {
  }

  /** Two sequences with the same keys, position by position, have the same lookups. */
  lemma FirstMatchSameKeys<T>(s: seq<T>, t: seq<T>, key: T -> string, id: string)
    requires |s| == |t|
    requires forall j :: 0 <= j < |s| ==> key(s[j]) == key(t[j])
    ensures FirstMatch(t, key, id) == FirstMatch(s, key, id)
  {
    var r := FirstMatch(s, key, id);
    if r.Some? {
      FirstMatchIs(t, key, id, r.value);
    }
  }

  /** Overwriting an element with one of the same key moves no lookup. */
  lemma FirstMatchReplace<T>(s: seq<T>, key: T -> string, i: nat, v: T, id: string)
    requires i < |s| && key(v) == key(s[i])
    ensures FirstMatch(s[i := v], key, id) == FirstMatch(s, key, id)
  {
    FirstMatchSameKeys(s, s[i := v], key, id);
  }

  /** An appended element is found only by a key no earlier element has. */
  lemma FirstMatchAppend<T>(s: seq<T>, key: T -> string, v: T, id: string)
    ensures FirstMatch(s + [v], key, id) ==
      if FirstMatch(s, key, id).Some? then FirstMatch(s, key, id)
      else if key(v) == id then Some(|s|)
      else None
  {
    var t := s + [v];
    var r := FirstMatch(s, key, id);
    assert forall j :: 0 <= j < |s| ==> t[j] == s[j];
    if r.Some? {
      FirstMatchIs(t, key, id, r.value);
    } else if key(v) == id {
      FirstMatchIs(t, key, id, |s|);
    } else {
      assert forall j :: 0 <= j < |t| ==> key(t[j]) != id;
    }
  }

  /** Every element of `RemoveAt(s, i)` is an element of `s`, at the same place or one later. */
  lemma RemoveAtIndex<T>(s: seq<T>, i: nat, q: nat)
    requires i < |s| && q < |s| - 1
    ensures RemoveAt(s, i)[q] == if q < i then s[q] else s[q + 1]
  {
  }

  /** Removing an element keeps a key that matched nothing matching nothing. */
  lemma FirstMatchRemoveMissing<T>(s: seq<T>, key: T -> string, i: nat, id: string)
    requires i < |s| && FirstMatch(s, key, id).None?
    ensures FirstMatch(RemoveAt(s, i), key, id).None?
  {
    var t := RemoveAt(s, i);
    forall q | 0 <= q < |t| ensures key(t[q]) != id {
      RemoveAtIndex(s, i, q);
    }
  }

  /**
   Removing an element whose key is not `id` leaves the lookup of `id` finding the same
   element, one place earlier when it came after the removed one.
   */
  lemma FirstMatchRemoveOther<T>(s: seq<T>, key: T -> string, i: nat, id: string, j: nat)
    requires i < |s| && key(s[i]) != id
    requires FirstMatch(s, key, id) == Some(j)
    ensures FirstMatch(RemoveAt(s, i), key, id) == Some(if j < i then j else j - 1)
  {
    var t := RemoveAt(s, i);
    var jt := if j < i then j else j - 1;
    forall q | 0 <= q < jt ensures key(t[q]) != id {
      RemoveAtIndex(s, i, q);
    }
    RemoveAtIndex(s, i, jt);
    FirstMatchIs(t, key, id, jt);
  }

  /** With unique keys, removing the element a key finds leaves that key finding nothing. */
  lemma FirstMatchRemoveUnique<T>(s: seq<T>, key: T -> string, i: nat)
    requires i < |s| && UniqueKeys(s, key)
    ensures FirstMatch(RemoveAt(s, i), key, key(s[i])).None?
  {
    var t := RemoveAt(s, i);
    forall q | 0 <= q < |t| ensures key(t[q]) != key(s[i]) {
      RemoveAtIndex(s, i, q);
    }
  }
}

=== FILE: policies.dfy ===
/**
 The policy operations of backend/router/router.js: create, update and delete are plain
 passthroughs to the collection, with no check against the claims that name the policy.
 */
module PolicyOps {
  import opened Wrappers
  import opened Records
  import opened Lookup
  import opened Ledger

  /**
   Create a policy. Nothing rejects an id that is already in use: the new document is
   stored after the existing one, which a query by that id keeps returning.
   */
  function CreatePolicy(st: Store, input: PolicyInput): (r: Store)
    ensures r.claims == st.claims
    ensures |r.policies| == |st.policies| + 1
    ensures r.policies[..|st.policies|] == st.policies && r.policies[|st.policies|] == NewPolicy(input)
    ensures PolicyOf(st, input.policyId).None? ==> PolicyOf(r, input.policyId) == Some(NewPolicy(input))
    ensures forall id :: id != input.policyId || PolicyOf(st, input.policyId).Some? ==>
      PolicyOf(r, id) == PolicyOf(st, id)
  {
    var p := NewPolicy(input);
    PolicyOfAppendAll(st, p);
    st.(policies := st.policies + [p])
  }

  /**
   Update a policy, overwriting every field the patch supplies, `amount` and
   `claimedAmount` included, with no check against the ceiling. An id no policy has
   changes nothing and is not an error.
   */
  function UpdatePolicy(st: Store, policyId: string, patch: PolicyPatch): (r: Store)
    ensures r.claims == st.claims
    ensures PolicyOf(st, policyId).None? ==> r == st
    ensures PolicyOf(st, policyId).Some? ==>
      var i := FindPolicy(st, policyId).value;
      && |r.policies| == |st.policies|
      && r.policies[i] == PatchPolicy(st.policies[i], patch)
      && forall j :: 0 <= j < |st.policies| && j != i ==> r.policies[j] == st.policies[j]
    ensures PolicyOf(st, policyId).Some? && patch.policyId.GetOr(policyId) == policyId ==>
      && PolicyOf(r, policyId) == Some(PatchPolicy(PolicyOf(st, policyId).value, patch))
      && forall id :: id != policyId ==> PolicyOf(r, id) == PolicyOf(st, id)
  {
    match FindPolicy(st, policyId)
    case None => st
    case Some(i) =>
      var p := PatchPolicy(st.policies[i], patch);
      if p.policyId == policyId then
        PolicyOfReplaceAll(st, i, p);
        st.(policies := st.policies[i := p])
      else
        st.(policies := st.policies[i := p])
  }

  /**
   Delete a policy. The claims that name it stay where they are, and the other policy
   documents keep their order. An id no policy has changes nothing and is not an error.
   */
  function DeletePolicy(st: Store, policyId: string): (r: Store)
    ensures r.claims == st.claims
    ensures PolicyOf(st, policyId).None? ==> r == st
    ensures PolicyOf(st, policyId).Some? ==>
      && |r.policies| == |st.policies| - 1
      && multiset(r.policies) + multiset{PolicyOf(st, policyId).value} == multiset(st.policies)
      && var i := FindPolicy(st, policyId).value;
         forall j :: 0 <= j < |r.policies| ==> r.policies[j] == st.policies[if j < i then j else j + 1]
    ensures forall id :: id != policyId ==> PolicyOf(r, id) == PolicyOf(st, id)
    ensures UniquePolicyIds(st) ==> PolicyOf(r, policyId).None?
  {
    match FindPolicy(st, policyId)
    case None => st
    case Some(i) =>
      PolicyOfRemoveOtherAll(st, i);
      PolicyOfRemoveSelf(st, i);
      RemoveAtMultiset(st.policies, i);
      st.(policies := RemoveAt(st.policies, i))
  }
}

=== FILE: policy_invariants.dfy ===
/**
 When the policy passthroughs keep the ledger's invariants, and the round trip between
 creating and deleting a policy.
 */
module PolicyInvariants {
  import opened Wrappers
  import opened Records
  import opened Lookup
  import opened Ledger
  import opened PolicyOps

  /**
   A new policy keeps every total in step when it starts at what its claims already add up
   to (0 when no claim names it and the request leaves `claimedAmount` out), or when its id
   is taken and it is shadowed.
   */
  lemma CreatePolicyKeepsConsistent(st: Store, input: PolicyInput)
    requires Consistent(st)
    requires PolicyOf(st, input.policyId).Some? || NewPolicy(input).claimedAmount == Charged(st.claims, input.policyId)
    ensures Consistent(CreatePolicy(st, input))
  {
  }

  /** A new policy keeps every policy under its ceiling when it starts under its own. */
  lemma CreatePolicyKeepsCoverage(st: Store, input: PolicyInput)
    requires WithinCoverage(st)
    requires PolicyOf(st, input.policyId).Some? || NewPolicy(input).claimedAmount <= input.amount
    ensures WithinCoverage(CreatePolicy(st, input))
  {
  }

  /** Deleting a policy just created under a fresh id gives back the store it was created in. */
  lemma CreateThenDeletePolicyRestores(st: Store, input: PolicyInput)
    requires PolicyOf(st, input.policyId).None?
    ensures DeletePolicy(CreatePolicy(st, input), input.policyId) == st
  {
    var st' := CreatePolicy(st, input);
    FirstMatchAppend(st.policies, PolicyKey, NewPolicy(input), input.policyId);
    assert FindPolicy(st', input.policyId) == Some(|st.policies|);
    assert RemoveAt(st'.policies, |st.policies|) == st.policies;
  }

  /**
   An update whose patched document keeps the stored `amount`, `claimedAmount` and
   `policyId`, whether the patch leaves them out or restates them, keeps both invariants.
   */
  lemma UpdatePolicyKeepsInvariants(st: Store, policyId: string, patch: PolicyPatch)
    requires PolicyOf(st, policyId).Some? ==>
      var p := PolicyOf(st, policyId).value;
      var p' := PatchPolicy(p, patch);
      p'.amount == p.amount && p'.claimedAmount == p.claimedAmount && p'.policyId == policyId
    ensures Consistent(st) ==> Consistent(UpdatePolicy(st, policyId, patch))
    ensures WithinCoverage(st) ==> WithinCoverage(UpdatePolicy(st, policyId, patch))
  {
  }

  /**
   With unique policy ids, deleting a policy keeps both invariants: its id reaches nothing
   afterwards, and no other policy changes.
   */
  lemma DeletePolicyKeepsInvariants(st: Store, policyId: string)
    requires UniquePolicyIds(st)
    ensures Consistent(st) ==> Consistent(DeletePolicy(st, policyId))
    ensures WithinCoverage(st) ==> WithinCoverage(DeletePolicy(st, policyId))
  {
  }
}

=== FILE: records.dfy ===
/**
 The documents of the policy and claim collections, as immutable records, and the
 request bodies that create or patch them.
 */
module Records {
  import opened Wrappers

  /**
   A policy document. `amount` is the coverage ceiling and `claimedAmount` the running
   total charged against it. A stored `claimedAmount` that is missing or null is
   represented by 0: the schema default fills a missing field when a document is loaded,
   and JavaScript arithmetic reads null as 0.
   */
  datatype Policy = Policy(
    policyId: string,
    policyholderId: string,
    amount: int,
    premium: int,
    startDate: string,
    endDate: string,
    claimedAmount: int)

  /** A claim document, charged against the policy whose `policyId` it names. */
  datatype Claim = Claim(claimId: string, policyId: string, claimAmount: int, claimDate: string)

  /** The body of a create-policy request; it may leave `claimedAmount` out. */
  datatype PolicyInput = PolicyInput(
    policyId: string,
    policyholderId: string,
    amount: int,
    premium: int,
    startDate: string,
    endDate: string,
    claimedAmount: Option<int>)

  /** The body of an update-policy request: `None` is a field the request leaves out. */
  datatype PolicyPatch = PolicyPatch(
    policyId: Option<string>,
    policyholderId: Option<string>,
    amount: Option<int>,
    premium: Option<int>,
    startDate: Option<string>,
    endDate: Option<string>,
    claimedAmount: Option<int>)

  /** The body of an update-claim request: `None` is a field the request leaves out. */
  datatype ClaimPatch = ClaimPatch(
    claimId: Option<string>,
    policyId: Option<string>,
    claimAmount: Option<int>,
    claimDate: Option<string>)

  /** The document a create-policy request stores: the schema default gives `claimedAmount` 0. */
  function NewPolicy(input: PolicyInput): (p: Policy)
    ensures p.policyId == input.policyId && p.policyholderId == input.policyholderId
    ensures p.amount == input.amount && p.premium == input.premium
    ensures p.startDate == input.startDate && p.endDate == input.endDate
    ensures input.claimedAmount.None? ==> p.claimedAmount == 0
    ensures input.claimedAmount.Some? ==> p.claimedAmount == input.claimedAmount.value
  {
    Policy(input.policyId, input.policyholderId, input.amount, input.premium,
           input.startDate, input.endDate, input.claimedAmount.GetOr(0))
  }

  /** The document after an update overwrites every field the patch supplies. */
  function PatchPolicy(p: Policy, u: PolicyPatch): Policy {
    Policy(u.policyId.GetOr(p.policyId), u.policyholderId.GetOr(p.policyholderId),
           u.amount.GetOr(p.amount), u.premium.GetOr(p.premium),
           u.startDate.GetOr(p.startDate), u.endDate.GetOr(p.endDate),
           u.claimedAmount.GetOr(p.claimedAmount))
  }

  /** The document after an update overwrites every field the patch supplies. */
  function PatchClaim(c: Claim, u: ClaimPatch): Claim {
    Claim(u.claimId.GetOr(c.claimId), u.policyId.GetOr(c.policyId),
          u.claimAmount.GetOr(c.claimAmount), u.claimDate.GetOr(c.claimDate))
  }

  /** A patch that supplies no field. */
  const EmptyClaimPatch := ClaimPatch(None, None, None, None)

  /** JavaScript's `x || fallback` on a number: an absent value and 0 are both falsy. */
  function OrElse(x: Option<int>, fallback: int): int {
    if x.None? || x.value == 0 then fallback else x.value
  }

  /**
   `||` and the absent-only default `??` disagree exactly when the supplied value is 0
   and the fallback is not.
   */
  lemma OrElseDiffersFromGetOr(x: Option<int>, fallback: int)
    ensures OrElse(x, fallback) != x.GetOr(fallback) <==> x == Some(0) && fallback != 0
  {
  }

  /** Patching leaves every field the patch omits as it was, and re-applying a patch changes nothing. */
  lemma PatchClaimProperties(c: Claim, u: ClaimPatch)
    ensures PatchClaim(c, EmptyClaimPatch) == c
    ensures PatchClaim(PatchClaim(c, u), u) == PatchClaim(c, u)
    ensures u.policyId.None? ==> PatchClaim(c, u).policyId == c.policyId
    ensures u.claimAmount.None? ==> PatchClaim(c, u).claimAmount == c.claimAmount
  {
  }
}

=== FILE: scenarios.dfy ===
/**
 Worked runs of the ledger on one policy with coverage 1000: the store each step
 produces, step by step.
 */
module Scenarios {
  import opened Wrappers
  import opened Records
  import opened Lookup
  import opened Ledger
  import opened ClaimOps
  import opened PolicyOps

  const P1 := Policy("P1", "H1", 1000, 50, "2024-01-01", "2024-12-31", 0)
  const C1 := Claim("C1", "P1", 400, "2024-03-01")
  const Start := Store([P1], [])

  /** A claim of 400 on an untouched policy is accepted and charged. */
  lemma ClaimWithinHeadroomIsCharged()
    ensures CreateClaim(Start, C1) == Success(Store([P1.(claimedAmount := 400)], [C1]))
  {
    FirstMatchIs([P1], PolicyKey, "P1", 0);
    assert [P1][0 := P1.(claimedAmount := 400)] == [P1.(claimedAmount := 400)];
    assert Start.claims + [C1] == [C1];
  }

  /** With 400 charged, a claim of 700 exceeds the 600 left and is refused. */
  lemma ClaimBeyondHeadroomIsRefused()
    ensures CreateClaim(Store([P1.(claimedAmount := 400)], [C1]), Claim("C2", "P1", 700, "2024-04-01"))
         == Failure(ExceedsLimit)
  {
  }

  /** Raising the claim to 900 is checked against 1000 - 400 + 400 and accepted; deleting it refunds all. */
  lemma UpdateThenDeleteRefunds()
    ensures UpdateClaim(Store([P1.(claimedAmount := 400)], [C1]), "C1", ClaimPatch(None, None, Some(900), None))
         == Success(Store([P1.(claimedAmount := 900)], [C1.(claimAmount := 900)]))
    ensures DeleteClaim(Store([P1.(claimedAmount := 900)], [C1.(claimAmount := 900)]), "C1")
         == Success(Store([P1], []))
  {
    var p4, p9, c9 := P1.(claimedAmount := 400), P1.(claimedAmount := 900), C1.(claimAmount := 900);
    FirstMatchIs([p4], PolicyKey, "P1", 0);
    FirstMatchIs([p9], PolicyKey, "P1", 0);
    FirstMatchIs([C1], ClaimKey, "C1", 0);
    FirstMatchIs([c9], ClaimKey, "C1", 0);
    assert [p4][0 := p9] == [p9];
    assert [C1][0 := c9] == [c9];
    assert [p9][0 := P1] == [P1];
    assert RemoveAt([c9], 0) == [];
  }

  /** A claim naming a policy no document has is refused and nothing is stored. */
  lemma ClaimOnMissingPolicyIsRefused()
    ensures CreateClaim(Start, Claim("C9", "P9", 10, "2024-05-01")) == Failure(PolicyNotFound)
  {
  }

  /**
   A claim of -500 is accepted, which makes room for a claim of 1500; deleting the negative
   claim then leaves 1500 charged against a coverage of 1000.
   */
  lemma NegativeClaimLetsChargesExceedCoverage()
    ensures CreateClaim(Start, Claim("N", "P1", -500, "2024-06-01"))
         == Success(Store([P1.(claimedAmount := -500)], [Claim("N", "P1", -500, "2024-06-01")]))
    ensures CreateClaim(Store([P1.(claimedAmount := -500)], [Claim("N", "P1", -500, "2024-06-01")]),
                        Claim("B", "P1", 1500, "2024-06-02"))
         == Success(Store([P1.(claimedAmount := 1000)],
                          [Claim("N", "P1", -500, "2024-06-01"), Claim("B", "P1", 1500, "2024-06-02")]))
    ensures DeleteClaim(Store([P1.(claimedAmount := 1000)],
                              [Claim("N", "P1", -500, "2024-06-01"), Claim("B", "P1", 1500, "2024-06-02")]), "N")
         == Success(Store([P1.(claimedAmount := 1500)], [Claim("B", "P1", 1500, "2024-06-02")]))
  {
    var n, b := Claim("N", "P1", -500, "2024-06-01"), Claim("B", "P1", 1500, "2024-06-02");
    var pm, pk, pf := P1.(claimedAmount := -500), P1.(claimedAmount := 1000), P1.(claimedAmount := 1500);
    FirstMatchIs([P1], PolicyKey, "P1", 0);
    FirstMatchIs([pm], PolicyKey, "P1", 0);
    FirstMatchIs([pk], PolicyKey, "P1", 0);
    FirstMatchIs([n, b], ClaimKey, "N", 0);
    assert [P1][0 := pm] == [pm];
    assert [pm][0 := pk] == [pk];
    assert [pk][0 := pf] == [pf];
    assert [n] + [b] == [n, b];
    assert Start.claims + [n] == [n];
    assert RemoveAt([n, b], 0) == [b];
  }

  /**
   Of three policy documents sharing the id P1, a delete removes the first and leaves the
   other two in their order, so the next query finds the second.
   */
  lemma DeleteKeepsOrderOfDuplicates()
    ensures
      var a, b, c := P1, P1.(premium := 60), P1.(premium := 70);
      && DeletePolicy(Store([a, b, c], []), "P1") == Store([b, c], [])
      && PolicyOf(DeletePolicy(Store([a, b, c], []), "P1"), "P1") == Some(b)
  {
    var a, b, c := P1, P1.(premium := 60), P1.(premium := 70);
    FirstMatchIs([a, b, c], PolicyKey, "P1", 0);
    assert RemoveAt([a, b, c], 0) == [b, c];
    FirstMatchIs([b, c], PolicyKey, "P1", 0);
  }
}

=== FILE: wrappers.dfy ===
/** Option and Result, the shapes every ledger operation returns. */
module Wrappers {

  /** A value that may be absent: a lookup that found nothing, or a field a request left out. */
  datatype Option<+T> = None | Some(value: T) {

    /** The value, or `default` when there is none. */
    function GetOr(default: T): T {
      match this
      case Some(v) => v
      case None => default
    }
  }

  /** The outcome of an operation that either produces a value or fails with an error. */
  datatype Result<+R, +E> = Success(value: R) | Failure(error: E)
}
